=== FILE: README.md ===
# Workout calculator — Dafny model

This project models the calculation core of a small fitness tracker
(`homework.py`). A workout is one of three variants: running, sports walking
or swimming. Each variant turns raw sensor readings into a distance in km,
a mean speed in km/h and the kilocalories spent. It does so from a step
count, a duration in hours, a body weight and the variant's extra readings
(height for walking, pool length and lap count for swimming). A dispatcher,
`read_package`, builds a variant from a three-letter code and a positional
list of readings. `show_training_info` bundles a label, the duration and the
three metrics into a summary record.

Files:

- `wrappers.dfy` — `Option`, standing for Python's implicit `None` result.
- `training.dfy` (module `Training`) — the constants, the `Workout` variant
  type, the `InfoMessage` record, and `Distance`, `MeanSpeed`, the three
  calorie formulas (each taking the speed as a plain number), `Calories`
  and `ShowTrainingInfo`.
- `realfacts.dfy` (module `RealFacts`) — sign and bound facts about real
  products and quotients used by the calorie proofs.
- `calories.dfy` (module `CalorieFacts`) — per-variant properties at a
  workout's own mean speed, and the walking formula against exact division.
- `package.dfy` (module `Package`) — `read_package`, with its round trip and
  the lemmas showing that extra readings are ignored.
- `samples.dfy` (module `Samples`) — the three sample packages of the
  program's driver, evaluated exactly.

All arithmetic is over Dafny's mathematical `real`. IEEE-754 double rounding
is abstracted away: the lemmas state what the formulas compute exactly.
Python's `//` on numbers is modelled as the floor of the exact quotient
(`Training.FloorDiv`).

Behaviour at the edges, as the code has it:

- An unknown code falls off the end of `read_package`'s `if` chain, so the
  result is `None`; no error is raised.
- A reading list shorter than the code needs raises IndexError, since the
  constructors index the list; the model requires enough readings. Readings
  beyond those the constructor uses are ignored.
- The sample run gives `(18 * 9.75 - 20) * 75 / 1000 * 1 * 60 = 699.75`
  kcal (`Samples.RunningSample`).

## Model

| member | source | states |
|---|---|---|
| `Training.StepLength` | homework.py:126 | the step length is 1.38 m for swimming and 0.65 m for running and walking (`Training.LEN_STEP`, line 30) |
| `Training.Label` | homework.py:57 | each variant is labelled with its class name: "Running", "SportsWalking", "Swimming", and the label identifies the variant |
| `Training.Distance` | homework.py:43-45 | distance times 1000 is the action count times the variant's step length; it is non-negative for a non-negative count and zero exactly when the count is zero |
| `Training.PoolDistance` | homework.py:146-148 | the pool distance in km is the pool length times the lap count over 1000, and it is non-negative for non-negative pool dimensions |
| `Training.MeanSpeed` | homework.py:47-49 | with non-zero duration, speed times duration gives back the step distance for running and walking, and gives back the pool distance for swimming (the override at lines 144-149) |
| `Training.FloorDiv` | homework.py:114 | Python's `//` yields a whole number `r` with `r <= a/b < r + 1` |
| `Training.RunningCalories` | homework.py:80-88 | with positive weight and duration, the running formula is positive if and only if the speed exceeds 20/18 |
| `Training.WalkingCalories` | homework.py:110-120 | the result is the `0.035 * weight * duration * 60` baseline plus the floor of speed²/height (Python's `//`) times the `0.029 * weight * duration * 60` unit. So a squared speed below a positive height leaves exactly the baseline, and with positive height, non-negative weight and positive duration the result never falls below it |
| `Training.SwimmingCalories` | homework.py:151-155 | the swimming formula is positive for positive weight and non-negative speed. Its value is pinned by `CalorieFacts.SwimmingCaloriesPerSpeed` and `CalorieFacts.SwimmingCaloriesAtRest` |
| `Training.Calories` | homework.py:80-155 | each variant's calories are its own formula applied to its own speed: step distance over duration for running and walking, pool distance over duration for swimming |
| `Training.ShowTrainingInfo` | homework.py:55-61 | the summary carries the variant's label, the duration unchanged, and the variant's distance, mean speed and calories. Its speed times duration is its distance for running and walking, and is the pool distance for swimming |
| `CalorieFacts.RunningCaloriesPositiveIff` | homework.py:80-88 | a running workout with positive weight and duration burns positive calories if and only if its mean speed exceeds 20/18 |
| `CalorieFacts.RunningCaloriesClosedForm` | homework.py:80-88 | running calories equal `(18 * action * 0.65 / 1000 - 20 * duration) * weight / 1000 * 60`: the duration in the speed cancels |
| `CalorieFacts.WalkingFloorLoss` | homework.py:110-120 | for any non-zero height, exact division minus the floored formula equals the fractional part of speed²/height times `0.029 * weight * duration * 60`, whatever the signs of weight and duration |
| `CalorieFacts.WalkingFormulaBelowExact` | homework.py:110-120 | with positive weight and duration, the floored formula never exceeds the exact-division value, and falls short of it by less than `0.029 * weight * duration * 60` |
| `CalorieFacts.WalkingFloorBelowExact` | homework.py:110-120 | with positive weight and duration, a walking workout's calories lie within `0.029 * weight * duration * 60` below the exact-division value, and never above it |
| `CalorieFacts.WalkingSlowBaseline` | homework.py:110-120 | a walking workout whose squared mean speed is below its positive height burns exactly the baseline |
| `CalorieFacts.WalkingAtLeastBaseline` | homework.py:110-120 | a walking workout with positive height, non-negative weight and positive duration never burns less than the baseline |
| `CalorieFacts.SwimmingIgnoresStrokes` | homework.py:144-155 | replacing a swim's stroke count leaves its mean speed and its calories unchanged |
| `CalorieFacts.SwimmingSpeedIsNotDistanceOverDuration` | homework.py:144-149 | on the sample swim, speed times duration differs from the stroke-based distance |
| `CalorieFacts.SwimmingSpeedNonNegative` | homework.py:144-149 | with non-negative pool dimensions and positive duration, swimming speed is non-negative |
| `CalorieFacts.SwimmingCaloriesPositive` | homework.py:151-155 | a swim with positive weight and non-negative mean speed burns positive calories |
| `CalorieFacts.SwimmingCaloriesPerSpeed` | homework.py:153-155 | raising the speed by `delta` km/h adds exactly `2 * weight * delta` kcal to the swimming formula |
| `CalorieFacts.SwimmingCaloriesAtRest` | homework.py:153-155 | at zero speed the swimming formula gives `1.1 * 2 * weight` kcal |
| `Package.Arity` | homework.py:158-165 | a code consumes readings if and only if it is "SWM", "RUN" or "WLK" |
| `Package.Readings` | homework.py:161-165 | each variant is built from as many readings as its code's arity, and the first three are action, duration and weight |
| `Package.ReadPackage` | homework.py:158-165 | a workout is built if and only if the code is known. The built workout has that code, and its readings are the list's first 5, 3 or 4 elements |
| `Package.ReadPackageRoundTrip` | homework.py:158-165 | a workout's own readings, sent under its own code, read back as that same workout |
| `Package.ReadPackageIgnoresExtra` | homework.py:158-165 | readings appended after the ones the constructor uses change nothing |
| `Package.ReadPackageInjective` | homework.py:158-165 | two successful packages build the same workout if and only if they have the same code and the same consumed readings |
| `Package.ReadingsInjective` | homework.py:161-165 | a workout is determined by its code and its readings |
| `Samples.SwimmingSample` | homework.py:176 | the sample swim gives distance 0.9936, speed 1.0 and 336.0 kcal over 1 h |
| `Samples.RunningSample` | homework.py:177 | the sample run gives distance 9.75, speed 9.75 and 699.75 kcal over 1 h |
| `Samples.WalkingSample` | homework.py:178 | the sample walk gives distance 5.85, speed 5.85 and 157.5 kcal, because the floor term is 0 |
| `Samples.UnknownCodeSample` | homework.py:158-165 | the code "XYZ" yields no workout for any readings |

## Left out

- Message rendering (`InfoMessage.get_message`, homework.py:20-25): fixed
  three-decimal float formatting is not modelled. `InfoMessage` is a record
  of a label and four numbers.
- The label is fixed per variant, not recovered at run time from
  `self.__class__.__name__`.
- The base `Training.get_spent_calories` (homework.py:51-53) returns `None`.
  The base class is never built, so only the three concrete variants exist.
- `main`, `print` and the driver loop (homework.py:168-183) are I/O. Their
  sample packages appear only as the `Samples` lemmas.
- IEEE-754 rounding: every formula is over exact reals.
- Zero duration raises ZeroDivisionError in Python. `MeanSpeed` and
  `Calories` require a non-zero duration instead of modelling the exception.
  A zero walking height (ZeroDivisionError in `//`) is likewise excluded by
  `Training.Computable`.
- `Package.ReadPackage`: a reading list shorter than the code's arity raises
  IndexError in Python. This is a precondition, not a modelled error.
- Integer-typed parameters (`action`, `height`, the pool sizes) are `real`
  like the rest, since the Python list carries any number and nothing
  truncates them.

=== FILE: calories.dfy ===
/** Properties of the per-variant calories at a workout's own mean speed:
    when they are positive, what they ignore, and how the walking floor
    division departs from exact division. */
module CalorieFacts {
  import opened RealFacts
  import opened Training

  // ---------------------------------------------------------------------
  // Running

  /** With positive weight and duration, a run burns a positive amount
      exactly when its mean speed exceeds 20/18 km/h. */
  lemma RunningCaloriesPositiveIff(w: Workout)
    requires w.Running? && w.weight > 0.0 && w.duration > 0.0
    ensures Calories(w) > 0.0 <==> MeanSpeed(w) > RunCoeff2 / RunCoeff1
  {
  }

  /** Running calories without the division by duration: the speed's
      `/ duration` cancels against the later `* duration`. */
  lemma RunningCaloriesClosedForm(w: Workout)
    requires w.Running? && w.duration != 0.0
    ensures Calories(w) == (RunCoeff1 * w.action * LenStep / MInKm - RunCoeff2 * w.duration)
                           * w.weight / MInKm * MinutesInHour
  {
  }

  // ---------------------------------------------------------------------
  // Walking

  /** The walking formula with the floor division replaced by exact
      division: the formula as it reads, not as Python computes it. */
  function ExactWalkingCalories(speed: real, weight: real, height: real, duration: real): real
    requires height != 0.0
  {
    (WalkCoeff3 * weight + speed * speed / height * WalkCoeff5 * weight) * duration * MinutesInHour
  }

  /** The floor division takes away exactly the fractional part of
      speed²/height, in units of `0.029 * weight * duration * 60`, whatever
      the signs of weight and duration. */
  lemma WalkingFloorLoss(speed: real, weight: real, height: real, duration: real)
    requires height != 0.0
    ensures ExactWalkingCalories(speed, weight, height, duration)
            - WalkingCalories(speed, weight, height, duration)
            == (speed * speed / height - FloorDiv(speed * speed, height))
               * WalkCoeff5 * weight * duration * MinutesInHour
  {
  }

  /** With positive weight and duration, that loss is never negative and
      is less than one unit: the floored formula never exceeds exact
      division and stays within one unit below it. */
  lemma WalkingFormulaBelowExact(speed: real, weight: real, height: real, duration: real)
    requires height != 0.0 && weight > 0.0 && duration > 0.0
    ensures WalkingCalories(speed, weight, height, duration)
            <= ExactWalkingCalories(speed, weight, height, duration)
    ensures ExactWalkingCalories(speed, weight, height, duration)
            - WalkingCalories(speed, weight, height, duration)
            < WalkCoeff5 * weight * duration * MinutesInHour
  {
    FloorGap(WalkCoeff3 * weight, speed * speed / height, FloorDiv(speed * speed, height),
             WalkCoeff5, weight, duration, MinutesInHour,
             ExactWalkingCalories(speed, weight, height, duration),
             WalkingCalories(speed, weight, height, duration));
  }

  /** The same band at a walking workout's own mean speed, for positive
      weight and duration. */
  lemma WalkingFloorBelowExact(w: Workout)
    requires w.SportsWalking? && Computable(w) && w.weight > 0.0 && w.duration > 0.0
    ensures Calories(w) <= ExactWalkingCalories(MeanSpeed(w), w.weight, w.height, w.duration)
    ensures ExactWalkingCalories(MeanSpeed(w), w.weight, w.height, w.duration) - Calories(w)
            < WalkCoeff5 * w.weight * w.duration * MinutesInHour
  {
    WalkingFormulaBelowExact(MeanSpeed(w), w.weight, w.height, w.duration);
  }

  /** A walker slower than sqrt(height) km/h gets no speed term at all. */
  lemma WalkingSlowBaseline(w: Workout)
    requires w.SportsWalking? && w.height > 0.0 && w.duration != 0.0
    requires MeanSpeed(w) * MeanSpeed(w) < w.height
    ensures Calories(w) == WalkingBaseline(w.weight, w.duration)
  {
  }

  /** With positive height, walking never burns less than the baseline. */
  lemma WalkingAtLeastBaseline(w: Workout)
    requires w.SportsWalking? && w.height > 0.0 && w.weight >= 0.0 && w.duration > 0.0
    ensures Calories(w) >= WalkingBaseline(w.weight, w.duration)
  {
  }

  // ---------------------------------------------------------------------
  // Swimming

  /** Swimming speed and calories depend on the pool geometry, not on the
      stroke count: replacing `action` changes only the distance. */
  lemma SwimmingIgnoresStrokes(w: Workout, strokes: real)
    requires w.Swimming? && w.duration != 0.0
    ensures var v := Swimming(strokes, w.duration, w.weight, w.lengthPool, w.countPool);
            MeanSpeed(v) == MeanSpeed(w) && Calories(v) == Calories(w)
  {
  }

  /** For swimming the reported distance and the reported speed come from
      different data: the sample session covers 0.9936 km by strokes but
      1.0 km by pool lengths in one hour. */
  lemma SwimmingSpeedIsNotDistanceOverDuration()
    ensures var w := Swimming(720.0, 1.0, 80.0, 25.0, 40.0);
            MeanSpeed(w) * w.duration != Distance(w)
  {
  }

  /** Swimming speed is non-negative for non-negative pool dimensions and
      positive duration. */
  lemma SwimmingSpeedNonNegative(w: Workout)
    requires w.Swimming? && w.duration > 0.0
    requires w.lengthPool >= 0.0 && w.countPool >= 0.0
    ensures MeanSpeed(w) >= 0.0
  {
  }

  /** A swim with positive weight and non-negative speed burns a positive
      amount. */
  lemma SwimmingCaloriesPositive(w: Workout)
    requires w.Swimming? && w.duration != 0.0
    requires w.weight > 0.0 && MeanSpeed(w) >= 0.0
    ensures Calories(w) > 0.0
  {
  }

  /** Each extra km/h of swimming speed adds `2 * weight` kcal: the
      formula is linear in the speed with slope 2 per kg. */
  lemma SwimmingCaloriesPerSpeed(speed: real, delta: real, weight: real)
    ensures SwimmingCalories(speed + delta, weight)
            == SwimmingCalories(speed, weight) + SwimCoeff7 * weight * delta
  {
  }

  /** At zero speed the swimming formula still charges `1.1 * 2` kcal per
      kg. */
  lemma SwimmingCaloriesAtRest(weight: real)
    ensures SwimmingCalories(0.0, weight) == SwimCoeff6 * SwimCoeff7 * weight
  {
  }
}

=== FILE: package.dfy ===
/** `read_package`: from a workout code and the sensors' positional
    readings to a workout variant. */
module Package {
  import opened Wrappers
  import opened Training

  /** How many leading readings the constructor for `code` consumes; an
      unknown code consumes none. */
  function Arity(code: string): (n: nat)
    ensures n > 0 <==> code == "SWM" || code == "RUN" || code == "WLK"
  {
    if code == "SWM" then 5
    else if code == "RUN" then 3
    else if code == "WLK" then 4
    else 0
  }

  /** The code under which a workout arrives. */
  function Code(w: Workout): (code: string)
    ensures Arity(code) > 0
  {
    match w
    case Running(_, _, _) => "RUN"
    case SportsWalking(_, _, _, _) => "WLK"
    case Swimming(_, _, _, _, _) => "SWM"
  }

  /** The readings a workout is built from, in constructor order. */
  function Readings(w: Workout): (data: seq<real>)
    ensures |data| == Arity(Code(w))
    ensures data[..3] == [w.action, w.duration, w.weight]
  {
    match w
    case Running(action, duration, weight) => [action, duration, weight]
    case SportsWalking(action, duration, weight, height) => [action, duration, weight, height]
    case Swimming(action, duration, weight, lengthPool, countPool) =>
      [action, duration, weight, lengthPool, countPool]
  }

  /** Dispatch on the code. A list shorter than the constructor needs raises
      IndexError in Python, so enough readings are required; readings past
      the constructor's arity are ignored, and any other code gives no
      workout. */
  function ReadPackage(code: string, data: seq<real>): (r: Option<Workout>)
    requires |data| >= Arity(code)
    ensures r.Some? <==> Arity(code) > 0
    ensures r.Some? ==> Code(r.value) == code && Readings(r.value) == data[..Arity(code)]
  {
    if code == "SWM" then Some(Swimming(data[0], data[1], data[2], data[3], data[4]))
    else if code == "RUN" then Some(Running(data[0], data[1], data[2]))
    else if code == "WLK" then Some(SportsWalking(data[0], data[1], data[2], data[3]))
    else None
  }

  /** A workout's readings, sent under its own code, read back as the
      same workout. */
  lemma ReadPackageRoundTrip(w: Workout)
    ensures ReadPackage(Code(w), Readings(w)) == Some(w)
  {
  }

  /** Readings are identified by position, so trailing extras change
      nothing. */
  lemma ReadPackageIgnoresExtra(code: string, data: seq<real>, extra: seq<real>)
    requires |data| >= Arity(code)
    ensures ReadPackage(code, data + extra) == ReadPackage(code, data)
  {
  }

  /** A built workout is determined by its code and readings: two packages
      that build anything build the same workout exactly when they agree
      on the code and on the readings the constructor consumes. */
  lemma ReadPackageInjective(c1: string, d1: seq<real>, c2: string, d2: seq<real>)
    requires |d1| >= Arity(c1) && |d2| >= Arity(c2)
    requires ReadPackage(c1, d1).Some? && ReadPackage(c2, d2).Some?
    ensures ReadPackage(c1, d1) == ReadPackage(c2, d2)
            <==> c1 == c2 && d1[..Arity(c1)] == d2[..Arity(c2)]
  {
  }

  /** Equal codes and readings mean equal workouts. */
  lemma ReadingsInjective(v: Workout, w: Workout)
    requires Code(v) == Code(w) && Readings(v) == Readings(w)
    ensures v == w
  {
  }
}

=== FILE: realfacts.dfy ===
/** Sign and bound facts about real products and quotients that the
    calorie formulas rely on. Each is stated as an implication, so that a
    formula can use it without first testing its hypotheses. */
module RealFacts {

  /** The product of two positive reals is positive. */
  lemma MulPos(a: real, b: real)
    ensures a > 0.0 && b > 0.0 ==> a * b > 0.0
  {
  }

  /** Multiplying by a positive factor keeps the sign. */
  lemma ScaleSign(x: real, k: real)
    ensures k > 0.0 ==> (x * k > 0.0 <==> x > 0.0)
    ensures k > 0.0 ==> (x * k >= 0.0 <==> x >= 0.0)
  {
    if k > 0.0 {
      if x > 0.0 {
        MulPos(x, k);
      } else if x < 0.0 {
        MulPos(-x, k);
      }
    }
  }

  /** A quotient by a positive divisor lies in [0, 1) when the dividend
      lies in [0, divisor). */
  lemma QuotientBelowOne(a: real, h: real)
    ensures h > 0.0 && 0.0 <= a < h ==> 0.0 <= a / h < 1.0
  {
    if h > 0.0 && 0.0 <= a < h {
      var q := a / h;
      assert q * h == a;
      ScaleSign(q, h);
      if q >= 1.0 {
        ScaleSign(q - 1.0, h);
        assert false;
      }
    }
  }

  /** The shape `(base + x * c * wt) * d * m`, evaluated at a quotient `q`
      (giving `exact`) and at a floor `f` of it (giving `floored`): the floor
      loses something in [0, c * wt * d * m). */
  lemma FloorGap(base: real, q: real, f: real, c: real, wt: real, d: real, m: real,
                 exact: real, floored: real)
    requires f <= q < f + 1.0
    requires c > 0.0 && wt > 0.0 && d > 0.0 && m > 0.0
    requires exact == (base + q * c * wt) * d * m
    requires floored == (base + f * c * wt) * d * m
    ensures floored <= exact
    ensures exact - floored < c * wt * d * m
  {
    var k := c * wt * d * m;
    MulPos(c, wt);
    MulPos(c * wt, d);
    MulPos(c * wt * d, m);
    var g := q - f;
    assert exact - floored == g * k;
    ScaleSign(g, k);
    ScaleSign(1.0 - g, k);
    assert (1.0 - g) * k == k - g * k;
  }
}

=== FILE: samples.dfy ===
/** The three sample packages of the program's driver, pushed through
    `read_package` and `show_training_info`, with the values an exact
    evaluation gives. */
module Samples {
  import opened Wrappers
  import opened Training
  import opened Package

  lemma SwimmingSample()
    ensures var r := ReadPackage("SWM", [720.0, 1.0, 80.0, 25.0, 40.0]);
            r.Some? && r.value.Swimming?
            && ShowTrainingInfo(r.value) == InfoMessage("Swimming", 1.0, 0.9936, 1.0, 336.0)
  {
  }

  lemma RunningSample()
    ensures var r := ReadPackage("RUN", [15000.0, 1.0, 75.0]);
            r.Some? && r.value.Running?
            && ShowTrainingInfo(r.value) == InfoMessage("Running", 1.0, 9.75, 9.75, 699.75)
  {
  }

  /** 5.85 squared is 34.2225, which floor-divides by 180 to 0, leaving only
      `0.035 * 75 * 1 * 60`. */
  lemma WalkingSample()
    ensures var r := ReadPackage("WLK", [9000.0, 1.0, 75.0, 180.0]);
            r.Some? && r.value.SportsWalking?
            && ShowTrainingInfo(r.value) == InfoMessage("SportsWalking", 1.0, 5.85, 5.85, 157.5)
  {
  }

  /** A code outside the table yields no workout, whatever the readings. */
  lemma UnknownCodeSample(data: seq<real>)
    ensures ReadPackage("XYZ", data) == None
  {
  }
}

=== FILE: training.dfy ===
/** Workout variants and their metrics (homework.py).

    Every quantity is modelled over Dafny's mathematical `real`, so the
    IEEE-754 rounding of the Python floats is abstracted away: the model
    states what the formulas compute exactly, not what a double computes. */
module Training {
  import opened RealFacts

  /** Step length of running and walking, in metres (`Training.LEN_STEP`). */
  const LenStep: real := 0.65
  /** Stroke length of swimming, in metres (`Swimming.LEN_STEP`). */
  const SwimLenStep: real := 1.38
  const MInKm: real := 1000.0
  const MinutesInHour: real := 60.0

  const RunCoeff1: real := 18.0
  const RunCoeff2: real := 20.0
  const WalkCoeff3: real := 0.035
  const WalkCoeff5: real := 0.029
  const SwimCoeff6: real := 1.1
  const SwimCoeff7: real := 2.0

  /** One workout: the three shared sensor readings plus the
      variant-specific ones. The base class is never built on its own, so
      only the three concrete variants exist. */
  datatype Workout =
    | Running(action: real, duration: real, weight: real)
    | SportsWalking(action: real, duration: real, weight: real, height: real)
    | Swimming(action: real, duration: real, weight: real, lengthPool: real, countPool: real)

  /** The summary handed to the printer: a label and four numbers. */
  datatype InfoMessage = InfoMessage(
    trainingType: string,
    duration: real,
    distance: real,
    speed: real,
    calories: real)

  /** Inputs on which no Python division raises ZeroDivisionError: every
      speed divides by the duration, and walking floor-divides by the
      height. */
  predicate Computable(w: Workout) {
    w.duration != 0.0 && (w.SportsWalking? ==> w.height != 0.0)
  }

  /** Class attribute `LEN_STEP` as seen from the variant. */
  function StepLength(w: Workout): (r: real)
    ensures w.Swimming? ==> r == SwimLenStep
    ensures !w.Swimming? ==> r == LenStep
  {
    if w.Swimming? then SwimLenStep else LenStep
  }

  /** Class name reported by `show_training_info`. */
  function Label(w: Workout): (r: string)
    ensures w.Running? <==> r == "Running"
    ensures w.SportsWalking? <==> r == "SportsWalking"
    ensures w.Swimming? <==> r == "Swimming"
  {
    match w
    case Running(_, _, _) => "Running"
    case SportsWalking(_, _, _, _) => "SportsWalking"
    case Swimming(_, _, _, _, _) => "Swimming"
  }

  /** Kilometres covered by `action` steps (or strokes). */
  function Distance(w: Workout): (r: real)
    ensures r * MInKm == w.action * StepLength(w)
    ensures w.action >= 0.0 ==> r >= 0.0
    ensures r == 0.0 <==> w.action == 0.0
  {
    w.action * StepLength(w) / MInKm
  }

  /** Kilometres swum according to the pool geometry. */
  function PoolDistance(w: Workout): (r: real)
    requires w.Swimming?
    ensures r * MInKm == w.lengthPool * w.countPool
    ensures w.lengthPool >= 0.0 && w.countPool >= 0.0 ==> r >= 0.0
  {
    w.lengthPool * w.countPool / MInKm
  }

  /** Mean speed in km/h. Running and walking divide the step distance by
      the duration; swimming ignores the strokes and uses the pool
      geometry instead. */
  function MeanSpeed(w: Workout): (r: real)
    requires w.duration != 0.0
    ensures !w.Swimming? ==> r * w.duration == Distance(w)
    ensures w.Swimming? ==> r * w.duration == PoolDistance(w)
  {
    match w
    case Swimming(_, duration, _, lengthPool, countPool) =>
      lengthPool * countPool / MInKm / duration
    case _ => Distance(w) / w.duration
  }

  /** Python's `a // b` on numbers: the floor of the exact quotient. */
  function FloorDiv(a: real, b: real): (r: real)
    requires b != 0.0
    ensures r <= a / b < r + 1.0
    ensures r == r.Floor as real
  {
    (a / b).Floor as real
  }

  /** Calories of the walking baseline term `0.035 * weight`, over the
      whole duration. */
  function WalkingBaseline(weight: real, duration: real): real {
    WalkCoeff3 * weight * duration * MinutesInHour
  }

  /** `Running.get_spent_calories`, given the mean speed. With positive
      weight and duration it is positive exactly when the speed exceeds
      20/18 km/h. */
  function RunningCalories(speed: real, weight: real, duration: real): (r: real)
    ensures weight > 0.0 && duration > 0.0 ==> (r > 0.0 <==> speed > RunCoeff2 / RunCoeff1)
  {
    MulPos(weight / MInKm, duration);
    MulPos(weight / MInKm * duration, MinutesInHour);
    ScaleSign(RunCoeff1 * speed - RunCoeff2, weight / MInKm * duration * MinutesInHour);
    (RunCoeff1 * speed - RunCoeff2) * weight / MInKm * duration * MinutesInHour
  }

  /** `SportsWalking.get_spent_calories`, given the mean speed. The squared
      speed (the exponent `coeff_calorie_4` is 2) is floor-divided by the
      height with Python's `//`, so only whole multiples of the height
      contribute: the result is the baseline plus a whole number of
      `0.029 * weight * duration * 60` units, the floor of speed²/height.
      Below sqrt(height) km/h only the baseline remains, and with positive
      height the result never falls below it. */
  function WalkingCalories(speed: real, weight: real, height: real, duration: real): (r: real)
    requires height != 0.0
    ensures height > 0.0 && speed * speed < height ==> r == WalkingBaseline(weight, duration)
    ensures height > 0.0 && weight >= 0.0 && duration > 0.0 ==> r >= WalkingBaseline(weight, duration)
    ensures r == WalkingBaseline(weight, duration)
                 + FloorDiv(speed * speed, height) * (WalkCoeff5 * weight * duration * MinutesInHour)
  {
    var f := FloorDiv(speed * speed, height);
    QuotientBelowOne(speed * speed, height);
    ScaleSign(speed * speed, 1.0 / height);
    ScaleSign(f * WalkCoeff5 * weight, duration * MinutesInHour);
    (WalkCoeff3 * weight + f * WalkCoeff5 * weight) * duration * MinutesInHour
  }

  /** `Swimming.get_spent_calories`, given the mean speed: positive for a
      positive weight and a non-negative speed. */
  function SwimmingCalories(speed: real, weight: real): (r: real)
    ensures weight > 0.0 && speed >= 0.0 ==> r > 0.0
  {
    MulPos((speed + SwimCoeff6) * SwimCoeff7, weight);
    (speed + SwimCoeff6) * SwimCoeff7 * weight
  }

  /** Kilocalories spent. Each variant applies its own formula to the
      speed its own `get_mean_speed` gives, so a swim's calories come from
      its pool geometry and a run's or walk's from its step distance. */
  function Calories(w: Workout): (r: real)
    requires Computable(w)
    ensures w.Running? ==> r == RunningCalories(Distance(w) / w.duration, w.weight, w.duration)
    ensures w.SportsWalking?
            ==> r == WalkingCalories(Distance(w) / w.duration, w.weight, w.height, w.duration)
    ensures w.Swimming? ==> r == SwimmingCalories(PoolDistance(w) / w.duration, w.weight)
  {
    match w
    case Running(_, duration, weight) => RunningCalories(MeanSpeed(w), weight, duration)
    case SportsWalking(_, duration, weight, height) =>
      WalkingCalories(MeanSpeed(w), weight, height, duration)
    case Swimming(_, _, weight, _, _) => SwimmingCalories(MeanSpeed(w), weight)
  }

  /** `show_training_info`: the label, the duration unchanged, and the
      three metrics. */
  function ShowTrainingInfo(w: Workout): (m: InfoMessage)
    requires Computable(w)
    ensures m.trainingType == Label(w)
    ensures m.duration == w.duration
    ensures m.distance == Distance(w) && m.speed == MeanSpeed(w) && m.calories == Calories(w)
    ensures !w.Swimming? ==> m.speed * m.duration == m.distance
    ensures w.Swimming? ==> m.speed * m.duration == PoolDistance(w)
  {
    InfoMessage(Label(w), w.duration, Distance(w), MeanSpeed(w), Calories(w))
  }
}

=== FILE: wrappers.dfy ===
/** An optional result; `None` stands for Python's implicit `None` return
    value. */
module Wrappers {

  datatype Option<+T> = None | Some(value: T)
}
